=== FILE: README.md ===
# Calculator tool dispatch: a Dafny model

The system offers four arithmetic operations (`add`, `subtract`, `multiply`,
`divide`) through two front ends. One is a tool-protocol server that registers
four named, described tools (`mcp_server.py`, and a second copy in `server.py`, the one `main.py` starts).
The other is an HTTP server that serves a calculator page and a
`POST /call_tool` JSON endpoint. The HTTP server exists in three variants:
`web_server.py`, `run_server.py` and `simple_server.py`. The page itself
(`static/script.js`) posts operations and keeps a short calculation history.

The model states the tool-dispatch contract once, as a reference
(`Dispatcher.Dispatch`). It models each of the three handlers as written and
proves how each one relates to that reference and to the others:

- For a well-formed body, all three follow the reference. They differ only in
  the status of a zero divisor: 500 in `web_server.py` (the `ValueError` raised by
  `divide_numbers` reaches the generic handler) and 400 in the other two.
- `web_server.py` and `run_server.py` answer a tool call differently in exactly
  two cases. One is a zero divisor. The other is an unknown tool name whose
  `arguments` is not a dict: `web_server.py` never reads the arguments and
  answers 400, while `run_server.py` reads them first and answers 500.
- `simple_server.py` answers every tool call exactly as `run_server.py` does.
- Only `web_server.py` routes `GET /config`.
- The page cannot tell the servers apart. It posts well-formed bodies, and it
  turns every non-OK answer into the same default message.

Modules, one file each: `Wrappers`, `Values` (Python values from a JSON body,
exceptions, and `str()` renderings), `SharedFunctions`, `Operations`, `Http`,
`ToolCall` (the request-reading lines the three handlers share word for word),
`WebServer`, `RunServer`, `SimpleServer`, `Dispatcher`, `Variants`, `McpServer`,
`Server`, `Calculator` (the page) and `EndToEnd`.

How things are modelled:
- Numbers are `real`, an idealisation of Python floats and ints.
- Python's `bool` counts as the number 1 or 0, as it does in Python
  arithmetic. So `False` is a zero divisor.
- `str()` of a number, list, dict or non-`ValueError` exception is a symbolic
  piece (`NumberText`, `ReprText`, `ErrorText`). Text the code spells out is
  exact.
- The file system is a map from paths to readable or unreadable entries.
  `os.path.join` is modelled for two components.

A zero divisor is answered 400 by `run_server.py` and `simple_server.py`, and
500 by `web_server.py`.

## Model

| member | source | states |
|---|---|---|
| Values.PyStr | web_server.py:119 | `str()` of a tool name: a string is itself, an absent name is `None`, a boolean is `True` or `False`; only these renderings are known exactly |
| Values.ErrorStr | web_server.py:127-130 | `str(e)` of a `ValueError` is exactly its message; other exceptions are rendered symbolically |
| SharedFunctions.DivideNumbers | shared_functions.py:32-40 | fails exactly when `y == 0`, with `ValueError("Cannot divide by zero")`; otherwise the quotient times `y` gives back `x` |
| SharedFunctions.AddCommutes | shared_functions.py:11-16 | `add_numbers` is commutative |
| SharedFunctions.SubtractUndoesAdd | shared_functions.py:11-23 | `subtract_numbers` undoes `add_numbers` and vice versa |
| SharedFunctions.SubtractAntisymmetric | shared_functions.py:18-23 | `subtract_numbers(x, y) == -subtract_numbers(y, x)` |
| SharedFunctions.MultiplyCommutes | shared_functions.py:25-30 | `multiply_numbers` is commutative |
| SharedFunctions.DivideUndoesMultiply | shared_functions.py:38-40 | for `y != 0`, `divide_numbers(multiply_numbers(x, y), y)` succeeds with `x` |
| SharedFunctions.DivideByZeroFails | shared_functions.py:35-37 | every dividend fails against 0 with the same `ValueError` |
| Operations.Named | web_server.py:110-118 | a name selects an operation exactly when it is one of the four (case-sensitive), and it is that operation's name |
| Operations.Apply | shared_functions.py:11-40 | of the four shared functions only divide can fail, and only on a zero divisor |
| Operations.Evaluate | run_server.py:80-91 | Python `x op y` on body values: succeeds exactly on numeric operands without a zero divisor, and then equals the shared function; non-numbers raise TypeError |
| Http.ExtensionsExclusive | web_server.py:74-83 | no file name ends in two of `.css`, `.js`, `.html` |
| Http.ContentTypeFor | web_server.py:74-83 | four-way table: each type is returned exactly for its extension, `text/plain` otherwise |
| Http.StaticName | web_server.py:43-45 | a path names a static file exactly when it starts with `/static/`, and `"/static/" + f == path` |
| Http.StaticNameOfPrefixed | run_server.py:28-30 | `/static/f` always serves `f` |
| Http.JoinPath | web_server.py:59 | `os.path.join`: an absolute name replaces the directory; otherwise the name follows the directory, with one `/` between them unless the directory is empty or already ends in `/` |
| Http.AbsoluteNameLeavesStaticDir | web_server.py:44-45 | a path `/static//x` is looked up at `/x`, outside the static directory |
| Http.SentHeaders | web_server.py:132-148 | a JSON answer carries its status, `Content-Type: application/json`, the three CORS headers and a body; the preflight is 200 with only the three CORS headers and no body |
| Http.ServeFile | web_server.py:56-72 | 404 exactly when the path does not exist, 200 with the file's bytes and the given type exactly when it is a readable file, 500 otherwise |
| ToolCall.Decode | web_server.py:100-107 | a body yields a call exactly when it parses to a dict; a present `name` or `arguments` is read as its value, an absent name as None and absent arguments as `{}`; other bodies raise |
| ToolCall.Operands | run_server.py:77-78 | operands are read only from a dict of arguments: a present `x` or `y` is read as its value, an absent one as 0; otherwise AttributeError |
| ToolCall.ToolOf | simple_server.py:43-54 | only a string equal to one of the four names selects a tool |
| ToolCall.NotFoundSpelled | run_server.py:93 | the unknown-tool message is `Herramienta '<name>' no encontrada`, with `None` for an absent name |
| ToolCall.RaisedDivideByZero | web_server.py:127-130 | the raised divide-by-zero error and the literal one produce the same JSON object |
| WebServer.CallShared | web_server.py:110-117 | on numeric operands the call is exactly the shared function; a zero divisor raises the shared `ValueError`; Python's own ZeroDivisionError never arises |
| WebServer.HandleToolCall | web_server.py:98-130 | statuses are 200/400/500; 400 exactly for a parsed body with an unknown name, whatever its arguments, with the not-found message; 500 with `str(e)` for an unreadable body, for a known tool whose arguments are not a dict (AttributeError), for a zero divisor (the shared ValueError) and for operands that are not numbers (TypeError); 200 exactly when a known tool gets two numbers and no zero divisor, with the text of the shared function's result |
| WebServer.HandleGet | web_server.py:37-47 | `/` and `/index.html` serve index.html as text/html; `/config` alone gives the config JSON; `/static/<f>` serves `f` with its table type; all else 404 |
| WebServer.Handle | web_server.py:37-54 | GET is routed by `HandleGet`; POST `/call_tool` sends the tool-call outcome as JSON with the configured CORS values, other POST paths 404; OPTIONS is 200 with CORS headers and no body |
| RunServer.HandleToolCall | run_server.py:67-103 | statuses are 200/400/500; 400 exactly for readable arguments with an unknown name (the not-found message) or a zero divisor to divide (`Cannot divide by zero`); 500 with `str(e)` for an unreadable body, for arguments that are not a dict whatever the name, and for operands that are not numbers; 200 exactly when a known tool gets two numbers and no zero divisor, with the text of the result; division by zero is never attempted |
| RunServer.HandleGet | run_server.py:25-32 | serves only `/`, `/index.html` and `/static/<f>`; `/config` and all else give 404 |
| RunServer.Handle | run_server.py:25-38 | GET is routed by `HandleGet`; POST `/call_tool` answers with the fixed CORS values, other POST paths 404, OPTIONS 200 without body |
| SimpleServer.GetTarget | simple_server.py:20-23 | `/` is rewritten to `/index.html`, every other path passes unchanged |
| SimpleServer.HandleToolCall | simple_server.py:31-61 | the same contract as run_server.py's: 400 for an unknown name or a zero divisor once the arguments are read, 500 with `str(e)` for an unreadable body, arguments that are not a dict or operands that are not numbers, 200 exactly when the arithmetic runs |
| SimpleServer.Handle | simple_server.py:25-29 | GET goes to the library with the rewritten path; POST `/call_tool` answers the tool call, other POST paths 404; OPTIONS 200 without body |
| Variants.WebFollowsContract | web_server.py:107-130 | for a well-formed body (missing x/y as 0) the answer is the reference dispatch rendered with 500 for a zero divisor |
| Variants.RunFollowsContract | run_server.py:77-98 | for a well-formed body the answer is the reference dispatch rendered with 400 for a zero divisor |
| Variants.SimpleFollowsContract | simple_server.py:40-58 | for a well-formed body the answer is the reference dispatch rendered with 400 for a zero divisor |
| Variants.SimpleMatchesRun | simple_server.py:31-61 | every tool call gets the same status and body from simple_server.py as from run_server.py |
| Variants.WebAndRunDiffer | web_server.py:109-121 | the two servers differ exactly on a zero divisor (500 vs 400, same message) and on an unknown name with non-dict arguments (400 vs 500) |
| Variants.WebAndRunAgreeElsewhere | web_server.py:37-54 | with default CORS values and the same static directory, every other request gets the same response |
| Variants.ConfigOnlyOnWeb | web_server.py:41-42 | GET `/config` is the config JSON on web_server.py and 404 on run_server.py |
| Variants.SimpleMatchesRunBesidesGet | simple_server.py:25-77 | POST and OPTIONS get identical responses from simple_server.py and run_server.py |
| Variants.UnroutedPathIsNotFound | run_server.py:31-32 | GET `/nonexistent` is 404 on both routing servers |
| McpServer.RegistryShape | mcp_server.py:34-52 | exactly four tools, with distinct names `add`, `subtract`, `multiply`, `divide`, each named after what it computes |
| McpServer.Find | mcp_server.py:34-49 | a name finds a registered tool exactly when it is one of the four |
| McpServer.Invoke | mcp_server.py:35-52 | each tool returns exactly its shared function applied to `(x, y)`, failing only for divide by zero |
| McpServer.OnlyDivideFails | mcp_server.py:49-52 | the divide tool fails on every zero divisor with the shared error; no other tool ever fails |
| Server.DivideNumbers | server.py:54-62 | fails exactly when `y == 0` with "Cannot divide by zero"; otherwise the quotient times `y` gives back `x` |
| Server.CopiesAgreeWithShared | server.py:33-62 | each copied function agrees pointwise with its namesake in shared_functions.py |
| Server.Invoke | server.py:65-83 | the wrappers fail exactly for divide with a zero divisor |
| Server.SameToolsAsMcpServer | server.py:65-83 | same tool names and descriptions as mcp_server.py, and the same result for every tool and input |
| Calculator.AddToHistory | static/script.js:127-152 | the new entry is at index 0, earlier entries follow in order shifted by one, and the length is `min(n + 1, 10)` |
| Calculator.ReplayKeepsNewest | static/script.js:145-151 | after any sequence of additions the history holds the newest entries first, then the older ones, cut to ten |
| Calculator.ClearHistory | static/script.js:193-196 | the history is empty afterwards |
| Calculator.ClearedHistoryHoldsNewest | static/script.js:193-196 | after clearing, the history holds exactly the newest ten entries added since, newest first |
| Calculator.OperationSymbol | static/script.js:183-191 | add is `+`, subtract `-`, multiply `×`, divide `÷`; any other string maps to itself |
| Calculator.SymbolsDistinct | static/script.js:184-189 | no two operations share a sign |
| Calculator.ThrownMessage | static/script.js:110 | a non-empty detail is itself the thrown message; the message is the default exactly when the detail is missing, empty, or the default itself |
| Calculator.ReadReply | static/script.js:108-114 | the text of `content[0]` is returned exactly on a 2xx content reply; every non-OK answer throws the default message |
| Calculator.PerformOperation | static/script.js:72-93 | NaN input shows an error, sends nothing and keeps the history; otherwise it sends `{name, arguments: {x, y}}` and records the result with no error, or the error message with no result |
| EndToEnd.PageRequestIsWellFormed | static/script.js:102-105 | the page's body always reaches the servers named by the operation, with the two numbers as arguments |
| EndToEnd.PageSeesSameOutcome | static/script.js:108-111 | the page ends in the same state whichever of the three servers answers |
| EndToEnd.DivideByZeroRecorded | static/script.js:87-89 | dividing by zero through web_server.py records an error entry with the default message |
| EndToEnd.AddShowsSum | static/script.js:84-86 | adding through web_server.py shows and records `str(x + y)` |
| EndToEnd.InvalidInputSendsNothing | static/script.js:76-79 | with NaN in either number field nothing is sent and the history is unchanged |

## Left out

- `main.py` starts both servers on threads and imports a `proxy` module that is not part of this model.
- Sockets, `HTTPServer`/`TCPServer`, `serve_forever`, and creating the static directory at start-up are not modelled. File reads are a map from paths to contents or to "unreadable".
- The static serving that `simple_server.py` hands to `SimpleHTTPRequestHandler` is library code. The model stops at the rewritten path (`Delegated`).
- Environment and dotenv loading, and logging setup and log lines, are not modelled. The CORS values, static directory and `/config` values are parameters (`WebServer.Settings`). A `PORT_MCP` that is not an integer makes `serve_config` raise; this is not modelled.
- The page's `loadConfig` fallback and footer are not modelled. The page's server is the `POST /call_tool` handler passed as a parameter, and a failed fetch is not modelled.
- IEEE-754 behaviour is not modelled: rounding, infinities, NaN (including JSON `NaN` and `Infinity`), and Python's int-vs-float result types. Results are reals. Python keeps int arithmetic exact, so `10**400 + 1` is answered 200 as in the model. But an int beyond float range raises OverflowError when it meets a float (`10**400 + 1.5`) or is divided (`10**400 / 1`). All three servers answer those 500; the model answers 200.
- ToolCall.Computed: Python 3.11 and later refuse `str()` of an int with more than 4300 digits, raising ValueError. Any result with more than 4300 digits would then be answered 500, a sum or difference as well as a product (on `web_server.py` already by the f-string in the shared function, on the other two by `str(result)`). Results are unbounded reals here and are always answered 200. An operand with more than 4300 digits never reaches the handler, since `json.loads` refuses it as well; that is not modelled either.
- Values.PyStr: the exact digits `str()` gives a number, and the repr of a list or dict, are left symbolic. Only the text of None, booleans and strings is exact.
- Operations.Evaluate: Python's `+` on two strings or two lists, and `*` of a string or list by an int, succeed and give 200. The model treats every non-numeric operand as a TypeError (500).
- JSON objects with duplicate keys are collapsed to a map, as `json.loads` keeps the last value.
- Request parsing is the library's. `Request.path` is `self.path` after the library reduces a leading run of slashes to one, so a raw `//config` is routed as `/config`.
- HTTP methods other than GET, POST and OPTIONS are not modelled. On `web_server.py` and `run_server.py` they get the library's 501. On `simple_server.py`, HEAD is served by the library's static handler, without the `/` rewrite. The content and headers of `send_error` pages are the library's.
- Tool-protocol transport, schema generation and the framework's unknown-tool errors are not modelled. Only the name-to-function table and its behaviour are.
- The page's DOM rendering, loading state, Enter-key binding (which runs `add`) and timestamps are not modelled. `renderHistory` runs before the cut to ten, so the page can briefly show eleven items; only the array is modelled.
- Calculator.OperationSymbol: names inherited from `Object.prototype` (such as `constructor`) make `symbols[operation]` a function rather than the operation. The model returns the operation for them.
- Calculator.ReadReply: a 2xx reply whose `content[0]` lacks `text` would yield `undefined` rather than throw. No server sends such a reply, and the model treats any 2xx non-content reply as an error the browser raises.

=== FILE: calculator.dfy ===
/** static/script.js: the page's calculator. Only its state is modelled (the
    history array and what the result area shows), not the DOM it renders. */
module Calculator {
  import opened Wrappers
  import opened Values
  import opened Http
  import Operations

  /** error.message as the page records it: text the script chose, or the
      browser's own message for an error the browser raised (a SyntaxError from
      response.json(), a TypeError from reading data.content[0]). */
  datatype Message = Said(s: string) | BrowserError

  /** One history entry; the timestamp is not modelled. */
  datatype HistoryItem = HistoryItem(
    operation: string, num1: real, num2: real, result: Option<Text>, error: Option<Message>)

  const HistoryLimit: nat := 10

  function Min(a: int, b: int): int {
    if a <= b then a else b
  }

  /** addToHistory: unshift the item, then keep only the first ten. */
  function AddToHistory(history: seq<HistoryItem>, item: HistoryItem): (r: seq<HistoryItem>)
    ensures |r| == Min(|history| + 1, HistoryLimit)
    ensures r[0] == item
    ensures r[1..] == history[..|r| - 1]
  {
    var grown := [item] + history;
    if |grown| > HistoryLimit then grown[..HistoryLimit] else grown
  }

  /** The history after adding the items in order, oldest first. */
  function Replay(history: seq<HistoryItem>, items: seq<HistoryItem>): seq<HistoryItem>
    decreases |items|
  {
    if items == [] then history
    else AddToHistory(Replay(history, items[..|items| - 1]), items[|items| - 1])
  }

  function Reversed<T>(s: seq<T>): (r: seq<T>)
    ensures |r| == |s|
    ensures forall i :: 0 <= i < |s| ==> r[i] == s[|s| - 1 - i]
    decreases |s|
  {
    if s == [] then [] else [s[|s| - 1]] + Reversed(s[..|s| - 1])
  }

  /** However many items are added to a history of at most ten, it holds the
      newest ones first, followed by what it held before, cut to ten entries. */
  lemma {:induction false} ReplayKeepsNewest(history: seq<HistoryItem>, items: seq<HistoryItem>)
    requires |history| <= HistoryLimit
    ensures Replay(history, items) ==
      (Reversed(items) + history)[..Min(|items| + |history|, HistoryLimit)]
    decreases |items|
  {
    if items == [] {
      assert Reversed(items) + history == history;
    } else {
      var init, last := items[..|items| - 1], items[|items| - 1];
      ReplayKeepsNewest(history, init);
      var before := Replay(history, init);
      var r := AddToHistory(before, last);
      var m := Min(|items| + |history|, HistoryLimit);
      var target := (Reversed(items) + history)[..m];
      assert Reversed(items) == [last] + Reversed(init);
      assert |r| == m == |target|;
      assert r[0] == target[0];
      assert r[1..] == target[1..];
      assert r == [r[0]] + r[1..];
      assert target == [target[0]] + target[1..];
    }
  }

  datatype Display = Blank | Shown(text: Text) | Alert(prefix: string, message: Message)

  datatype Ui = Ui(history: seq<HistoryItem>, display: Display)

  /** clearHistory: the history is emptied, the result area is left alone. */
  function ClearHistory(ui: Ui): (r: Ui)
    ensures r.history == [] && r.display == ui.display
  {
    Ui([], ui.display)
  }

  /** After clearing, the history holds exactly the newest ten of the items
      added since, newest first. */
  lemma ClearedHistoryHoldsNewest(ui: Ui, items: seq<HistoryItem>)
    ensures Replay(ClearHistory(ui).history, items) == Reversed(items)[..Min(|items|, HistoryLimit)]
  {
    ReplayKeepsNewest([], items);
    assert Reversed(items) + [] == Reversed(items);
  }

  /** getOperationSymbol: the four operations get their signs, any other
      string is shown as it is. */
  function OperationSymbol(operation: string): (symbol: string)
    ensures operation !in Operations.Names ==> symbol == operation
    ensures operation == "add" ==> symbol == "+"
    ensures operation == "subtract" ==> symbol == "-"
    ensures operation == "multiply" ==> symbol == "\U{D7}"
    ensures operation == "divide" ==> symbol == "\U{F7}"
    ensures operation in Operations.Names ==> |symbol| == 1 && symbol != operation
  {
    if operation == "add" then "+"
    else if operation == "subtract" then "-"
    else if operation == "multiply" then "\U{D7}"
    else if operation == "divide" then "\U{F7}"
    else operation
  }

  /** No two operations share a sign. */
  lemma SymbolsDistinct(a: string, b: string)
    requires a in Operations.Names && b in Operations.Names && a != b
    ensures OperationSymbol(a) != OperationSymbol(b)
  {
  }

  const DefaultFailure := "Error en la operaci\U{F3}n"
  const InvalidInput := "Por favor, ingresa n\U{FA}meros v\U{E1}lidos"

  /** `errorData.detail || 'Error en la operación'`: a non-empty detail is the
      message, anything else gives the default. */
  function ThrownMessage(detail: Option<string>): (m: string)
    ensures m == DefaultFailure <==> detail.None? || detail.value in {"", DefaultFailure}
    ensures detail.Some? && detail.value != "" ==> m == detail.value
  {
    if detail.Some? && detail.value != "" then detail.value else DefaultFailure
  }

  /** The body callMCPTool posts: {name: operation, arguments: {x, y}}. */
  function ToolRequest(operation: string, x: real, y: real): Payload {
    Decoded(Object(map[
      "name" := Str(operation),
      "arguments" := Object(map["x" := Number(x), "y" := Number(y)])]))
  }

  /** What callMCPTool makes of the answer: the text of content[0] on a 2xx,
      a thrown Error otherwise. The servers' error objects carry an "error"
      member and never "detail", so the thrown message is always the default. */
  function ReadReply(o: Outcome): (r: Result<Text, Message>)
    ensures r.Success? <==> 200 <= o.status < 300 && o.reply.Content?
    ensures r.Success? ==> r.value == o.reply.text
    ensures !(200 <= o.status < 300) ==> r == Failure(Said(DefaultFailure))
  {
    if !(200 <= o.status < 300) then Failure(Said(ThrownMessage(None)))
    else match o.reply
      case Content(text) => Success(text)
      case _ => Failure(BrowserError)
  }

  /** The page state after an operation, and the body sent, if any. */
  datatype Step = Step(ui: Ui, sent: Option<Payload>)

  /** performOperation, with num1 and num2 as parseFloat left them (None for
      NaN) and the server's tool-call handling as a parameter. */
  function PerformOperation(
    ui: Ui, operation: string, num1: Option<real>, num2: Option<real>, server: Payload -> Outcome
  ): (step: Step)
    ensures num1.None? || num2.None? ==>
      step == Step(Ui(ui.history, Alert("", Said(InvalidInput))), None)
    ensures num1.Some? && num2.Some? ==>
      var request := ToolRequest(operation, num1.value, num2.value);
      var answer := ReadReply(server(request));
      && step.sent == Some(request)
      && step.ui.history != []
      && step.ui.history == AddToHistory(ui.history, step.ui.history[0])
      && step.ui.history[0].operation == operation
      && step.ui.history[0].num1 == num1.value && step.ui.history[0].num2 == num2.value
      && (answer.Success? ==>
            step.ui.history[0].result == Some(answer.value) && step.ui.history[0].error.None?
            && step.ui.display == Shown(answer.value))
      && (answer.Failure? ==>
            step.ui.history[0].result.None? && step.ui.history[0].error == Some(answer.error)
            && step.ui.display == Alert("Error: ", answer.error))
  {
    if num1.None? || num2.None? then
      Step(Ui(ui.history, Alert("", Said(InvalidInput))), None)
    else
      var x, y := num1.value, num2.value;
      var request := ToolRequest(operation, x, y);
      match ReadReply(server(request))
      case Success(text) =>
        Step(Ui(AddToHistory(ui.history, HistoryItem(operation, x, y, Some(text), None)), Shown(text)), Some(request))
      case Failure(message) =>
        Step(Ui(AddToHistory(ui.history, HistoryItem(operation, x, y, None, Some(message))),
                Alert("Error: ", message)), Some(request))
  }
}

=== FILE: dispatcher.dfy ===
/** The tool-dispatch contract on its own terms: a tool name, two numbers, and
    either a result or one of two failures. The servers are compared against
    it, and against each other, in module Variants. */
module Dispatcher {
  import opened Wrappers
  import opened Values
  import opened Http
  import opened ToolCall

  datatype DispatchError = UnknownTool(name: Json) | DivisionByZero

  /** Resolve the name against the fixed set of four (exact match) and compute. */
  function Dispatch(name: Json, x: real, y: real): Result<real, DispatchError> {
    if name == Str("add") then Success(x + y)
    else if name == Str("subtract") then Success(x - y)
    else if name == Str("multiply") then Success(x * y)
    else if name == Str("divide") then (if y == 0.0 then Failure(DivisionByZero) else Success(x / y))
    else Failure(UnknownTool(name))
  }

  /** A name outside the four fails, whatever the operands. */
  lemma UnknownNameAlwaysFails(name: Json, x: real, y: real)
    requires !(name.Str? && name.s in {"add", "subtract", "multiply", "divide"})
    ensures Dispatch(name, x, y) == Failure(UnknownTool(name))
  {
  }

  /** How a server writes a dispatch result: 200 with the text of the result,
      400 with the not-found message for an unknown name, and the given status
      with "Cannot divide by zero" for a zero divisor. */
  function Render(d: Result<real, DispatchError>, zeroDivisorStatus: nat): Outcome {
    match d
    case Success(r) => Outcome(200, Computed(r))
    case Failure(UnknownTool(name)) => Outcome(400, Error(NotFound(name)))
    case Failure(DivisionByZero) => Outcome(zeroDivisorStatus, DivideByZeroReply)
  }

  /** The number an argument dict gives for key: 0 when absent, nothing when
      present but not a number. */
  function NumericArgument(fields: map<string, Json>, key: string): Option<real> {
    if key in fields then Numeric(fields[key]) else Some(0.0)
  }

  /** The body is a dict naming `name`, with a dict of arguments whose x and y
      are numbers or absent and read as x and y. */
  predicate Carries(p: Payload, name: Json, x: real, y: real) {
    && Decode(p).Success?
    && Decode(p).value.name == name
    && Decode(p).value.arguments.Object?
    && NumericArgument(Decode(p).value.arguments.fields, "x") == Some(x)
    && NumericArgument(Decode(p).value.arguments.fields, "y") == Some(y)
  }
}

=== FILE: end_to_end.dfy ===
/** The page talking to each web server: what a calculation leaves in the
    history, whichever server answers it. */
module EndToEnd {
  import opened Wrappers
  import opened Values
  import opened Http
  import opened ToolCall
  import opened Dispatcher
  import opened Calculator
  import WebServer
  import RunServer
  import SimpleServer
  import Variants

  /** The page's request always reaches the servers as a well-formed body:
      its name is the operation and its arguments are the two numbers. */
  lemma PageRequestIsWellFormed(operation: string, x: real, y: real)
    ensures Carries(ToolRequest(operation, x, y), Str(operation), x, y)
  {
  }

  /** The page cannot tell the three servers apart: 400 and 500 are both
      non-OK and end in the same default message. */
  lemma PageSeesSameOutcome(ui: Ui, operation: string, num1: Option<real>, num2: Option<real>)
    ensures PerformOperation(ui, operation, num1, num2, WebServer.HandleToolCall)
         == PerformOperation(ui, operation, num1, num2, RunServer.HandleToolCall)
    ensures PerformOperation(ui, operation, num1, num2, SimpleServer.HandleToolCall)
         == PerformOperation(ui, operation, num1, num2, RunServer.HandleToolCall)
  {
    if num1.Some? && num2.Some? {
      var x, y := num1.value, num2.value;
      var request := ToolRequest(operation, x, y);
      PageRequestIsWellFormed(operation, x, y);
      Variants.WebFollowsContract(request, Str(operation), x, y);
      Variants.RunFollowsContract(request, Str(operation), x, y);
      Variants.SimpleMatchesRun(request);
      assert ReadReply(WebServer.HandleToolCall(request)) == ReadReply(RunServer.HandleToolCall(request));
    }
  }

  /** Dividing by zero through the full web server puts an error entry at the
      head of the history, carrying the default message. */
  lemma DivideByZeroRecorded(ui: Ui, x: real)
    ensures
      var step := PerformOperation(ui, "divide", Some(x), Some(0.0), WebServer.HandleToolCall);
      && step.ui.history[0] == HistoryItem("divide", x, 0.0, None, Some(Said(DefaultFailure)))
      && step.ui.display == Alert("Error: ", Said(DefaultFailure))
  {
    var request := ToolRequest("divide", x, 0.0);
    PageRequestIsWellFormed("divide", x, 0.0);
    Variants.WebFollowsContract(request, Str("divide"), x, 0.0);
  }

  /** Adding through the full web server shows str(x + y) and records it. */
  lemma AddShowsSum(ui: Ui, x: real, y: real)
    ensures
      var step := PerformOperation(ui, "add", Some(x), Some(y), WebServer.HandleToolCall);
      && step.ui.history[0] == HistoryItem("add", x, y, Some(PyStr(Number(x + y))), None)
      && step.ui.display == Shown(PyStr(Number(x + y)))
  {
    var request := ToolRequest("add", x, y);
    PageRequestIsWellFormed("add", x, y);
    Variants.WebFollowsContract(request, Str("add"), x, y);
  }

  /** With NaN in either field nothing is sent and the history is unchanged,
      whatever server would have answered. */
  lemma InvalidInputSendsNothing(
    ui: Ui, operation: string, num1: Option<real>, num2: Option<real>, server: Payload -> Outcome)
    requires num1.None? || num2.None?
    ensures PerformOperation(ui, operation, num1, num2, server).sent.None?
    ensures PerformOperation(ui, operation, num1, num2, server).ui.history == ui.history
  {
  }
}

=== FILE: http.dfy ===
/** The HTTP surface the three web servers share: requests as the handlers see
    them, the responses they send, the extension table and the static-file
    lookup. Sockets and the http.server library are not modelled. */
module Http {
  import opened Wrappers
  import opened Values

  datatype Method = Get | Post | Options

  /** The body of a POST as handle_tool_call reads it: Content-Length, the
      bytes, UTF-8 decoding and json.loads either yield a document or fail. */
  datatype Payload = Unreadable(fault: Fault) | Decoded(doc: Json)

  /** self.path as the handler sees it: the request target, query string
      included, after the library has reduced a leading run of slashes to one. */
  datatype Request = Request(verb: Method, path: string, payload: Payload)

  datatype Cors = Cors(origins: string, methods: string, headers: string)

  /** The CORS values run_server.py and simple_server.py hard-code, and the
      defaults web_server.py falls back on. */
  const DefaultCors := Cors("*", "GET,POST,OPTIONS", "Content-Type")

  datatype Header =
    | ContentType(mime: string)
    | ContentLength(bytes: nat)
    | AllowOrigin(origins: string)
    | AllowMethods(methods: string)
    | AllowHeaders(headers: string)

  /** The host and port values GET /config reports. */
  datatype UiConfig = UiConfig(mcpHost: string, mcpPort: int, uiHost: string, uiPort: int)

  /** The JSON object a server writes: {"content": [{"text": ...}]},
      {"error": ...}, or the four configuration members. */
  datatype Reply = Content(text: Text) | Error(message: Text) | Config(config: UiConfig)

  /** What handle_tool_call decides: the status code and the JSON object. */
  datatype Outcome = Outcome(status: nat, reply: Reply)

  datatype Response =
    | JsonResponse(status: nat, cors: Cors, reply: Reply)    // send_json_response
    | Preflight(cors: Cors)                                  // do_OPTIONS
    | FileResponse(contentType: string, content: seq<bv8>)  // serve_file, file found
    | ErrorPage(status: nat)                                 // send_error(status)
    | Delegated(path: string)                                // left to SimpleHTTPRequestHandler

  function CorsHeaders(cors: Cors): seq<Header> {
    [AllowOrigin(cors.origins), AllowMethods(cors.methods), AllowHeaders(cors.headers)]
  }

  /** send_json_response(status, reply). */
  function Send(cors: Cors, o: Outcome): Response {
    JsonResponse(o.status, cors, o.reply)
  }

  function Status(r: Response): nat
    requires !r.Delegated?
  {
    match r
    case JsonResponse(status, _, _) => status
    case Preflight(_) => 200
    case FileResponse(_, _) => 200
    case ErrorPage(status) => status
  }

  /** The headers the handler itself writes; an error page's headers are the
      library's and are not modelled. */
  function Headers(r: Response): seq<Header>
    requires r.JsonResponse? || r.Preflight? || r.FileResponse?
  {
    match r
    case JsonResponse(_, cors, _) => [ContentType("application/json")] + CorsHeaders(cors)
    case Preflight(cors) => CorsHeaders(cors)
    case FileResponse(mime, content) => [ContentType(mime), ContentLength(|content|)]
  }

  predicate HasBody(r: Response)
    requires !r.Delegated?
  {
    !r.Preflight?
  }

  /** send_json_response writes the status it is given, a JSON content type
      and the three CORS headers, then the body; do_OPTIONS writes 200 and the
      same three CORS headers, and no content type and no body. */
  lemma SentHeaders(cors: Cors, o: Outcome)
    ensures Status(Send(cors, o)) == o.status && HasBody(Send(cors, o))
    ensures Headers(Send(cors, o)) ==
      [ContentType("application/json"),
       AllowOrigin(cors.origins), AllowMethods(cors.methods), AllowHeaders(cors.headers)]
    ensures Status(Preflight(cors)) == 200 && !HasBody(Preflight(cors))
    ensures Headers(Preflight(cors)) ==
      [AllowOrigin(cors.origins), AllowMethods(cors.methods), AllowHeaders(cors.headers)]
  {
  }

  predicate StartsWith(s: string, prefix: string) {
    |prefix| <= |s| && s[..|prefix|] == prefix
  }

  predicate EndsWith(s: string, suffix: string) {
    |suffix| <= |s| && s[|s| - |suffix|..] == suffix
  }

  /** No name ends in two of the three extensions the table knows. */
  lemma ExtensionsExclusive(name: string)
    ensures !(EndsWith(name, ".css") && EndsWith(name, ".js"))
    ensures !(EndsWith(name, ".css") && EndsWith(name, ".html"))
    ensures !(EndsWith(name, ".js") && EndsWith(name, ".html"))
  {
    assert EndsWith(name, ".css") ==> name[|name| - 3] == 'c' && name[|name| - 4] == '.';
    assert EndsWith(name, ".js") ==> name[|name| - 3] == '.';
    assert EndsWith(name, ".html") ==> name[|name| - 3] == 't' && name[|name| - 4] == 'h';
  }

  /** get_content_type: the extension table, with text/plain for everything it
      does not list. Each type is returned exactly for its own extension. */
  function ContentTypeFor(filename: string): (mime: string)
    ensures mime in {"text/css", "application/javascript", "text/html", "text/plain"}
    ensures mime == "text/css" <==> EndsWith(filename, ".css")
    ensures mime == "application/javascript" <==> EndsWith(filename, ".js")
    ensures mime == "text/html" <==> EndsWith(filename, ".html")
  {
    ExtensionsExclusive(filename);
    if EndsWith(filename, ".css") then "text/css"
    else if EndsWith(filename, ".js") then "application/javascript"
    else if EndsWith(filename, ".html") then "text/html"
    else "text/plain"
  }

  const StaticPrefix := "/static/"

  /** The file name a GET path names under /static/: path[8:] when the path
      starts with the prefix. */
  function StaticName(path: string): (name: Option<string>)
    ensures name.Some? <==> StartsWith(path, StaticPrefix)
    ensures name.Some? ==> StaticPrefix + name.value == path
  {
    if StartsWith(path, StaticPrefix) then
      assert StaticPrefix + path[|StaticPrefix|..] == path;
      Some(path[|StaticPrefix|..])
    else None
  }

  /** The fixed routes are not under /static/. */
  lemma FixedRoutesNotStatic()
    ensures StaticName("/") == None
    ensures StaticName("/index.html") == None
    ensures StaticName("/config") == None
  {
    assert "/index.html"[..|StaticPrefix|] != StaticPrefix by {
      assert "/index.html"[1] != StaticPrefix[1];
    }
  }

  lemma StaticNameOfPrefixed(name: string)
    ensures StaticName(StaticPrefix + name) == Some(name)
  {
    assert (StaticPrefix + name)[..|StaticPrefix|] == StaticPrefix;
    assert (StaticPrefix + name)[|StaticPrefix|..] == name;
  }

  /** os.path.join(directory, name) for two components: an absolute name
      replaces the directory, otherwise a separator is added when needed. */
  function JoinPath(directory: string, name: string): (path: string)
    ensures StartsWith(name, "/") ==> path == name
    ensures !StartsWith(name, "/") ==> EndsWith(path, name) && StartsWith(path, directory)
    ensures !StartsWith(name, "/") && directory != [] && !EndsWith(directory, "/") ==>
      path == directory + "/" + name
    ensures !StartsWith(name, "/") && (directory == [] || EndsWith(directory, "/")) ==>
      path == directory + name
  {
    if StartsWith(name, "/") then name
    else if directory == [] || EndsWith(directory, "/") then directory + name
    else directory + "/" + name
  }

  /** An absolute name after /static/ is looked up outside the static
      directory. */
  lemma AbsoluteNameLeavesStaticDir(directory: string, rest: string)
    ensures JoinPath(directory, "/" + rest) == "/" + rest
  {
    assert StartsWith("/" + rest, "/");
  }

  /** The file system as serve_file sees it: a path either is absent, names a
      readable file, or exists but cannot be read (a directory, say). */
  datatype Entry = File(content: seq<bv8>) | Unreadable
  type Disk = map<string, Entry>

  /** serve_file(filename, mime): 200 with the bytes, 404 when the path does
      not exist, 500 when reading it fails. */
  function ServeFile(disk: Disk, directory: string, filename: string, mime: string): (r: Response)
    ensures r.FileResponse? || r == ErrorPage(404) || r == ErrorPage(500)
    ensures r == ErrorPage(404) <==> JoinPath(directory, filename) !in disk
    ensures r.FileResponse? <==>
      JoinPath(directory, filename) in disk && disk[JoinPath(directory, filename)].File?
    ensures r.FileResponse? ==>
      r == FileResponse(mime, disk[JoinPath(directory, filename)].content)
  {
    var path := JoinPath(directory, filename);
    if path !in disk then ErrorPage(404)
    else match disk[path]
      case File(content) => FileResponse(mime, content)
      case Unreadable => ErrorPage(500)
  }
}

=== FILE: mcp_server.dfy ===
/** mcp_server.py: the tool-protocol front end. Four tools, each with a fixed
    description, each forwarding its two numbers to the shared function of the
    same name. Transport and schema generation are the framework's. */
module McpServer {
  import opened Wrappers
  import opened Values
  import opened Operations
  import SharedFunctions

  datatype Tool = Tool(name: string, description: string, op: Op)

  /** The registrations, in declaration order. */
  const Tools: seq<Tool> := [
    Tool("add", "Add two numbers together", Add),
    Tool("subtract", "Subtract two numbers", Subtract),
    Tool("multiply", "Multiply two numbers", Multiply),
    Tool("divide", "Divide two numbers", Divide)
  ]

  /** Exactly four tools, one per name, each named after what it computes. */
  lemma RegistryShape()
    ensures |Tools| == 4
    ensures (set t | t in Tools :: t.name) == Names
    ensures forall i, j :: 0 <= i < j < |Tools| ==> Tools[i].name != Tools[j].name
    ensures forall t :: t in Tools ==> Name(t.op) == t.name
  {
    assert Tools[0].name == "add" && Tools[1].name == "subtract";
    assert Tools[2].name == "multiply" && Tools[3].name == "divide";
  }

  /** The registered tool with this name. */
  function Find(name: string): (t: Option<Tool>)
    ensures t.Some? <==> name in Names
    ensures t.Some? ==> t.value in Tools && t.value.name == name && Named(name) == Some(t.value.op)
  {
    if name == "add" then Some(Tools[0])
    else if name == "subtract" then Some(Tools[1])
    else if name == "multiply" then Some(Tools[2])
    else if name == "divide" then Some(Tools[3])
    else None
  }

  /** The four tool functions. */
  function AddTool(x: real, y: real): real {
    SharedFunctions.AddNumbers(x, y)
  }

  function SubtractTool(x: real, y: real): real {
    SharedFunctions.SubtractNumbers(x, y)
  }

  function MultiplyTool(x: real, y: real): real {
    SharedFunctions.MultiplyNumbers(x, y)
  }

  function DivideTool(x: real, y: real): Result<real, PyError> {
    SharedFunctions.DivideNumbers(x, y)
  }

  /** Calling a registered tool: the body of the function it was registered
      with. */
  function Invoke(t: Tool, x: real, y: real): (r: Result<real, PyError>)
    ensures r == Apply(t.op, x, y)
    ensures r.Failure? <==> t.op.Divide? && y == 0.0
  {
    match t.op
    case Add => Success(AddTool(x, y))
    case Subtract => Success(SubtractTool(x, y))
    case Multiply => Success(MultiplyTool(x, y))
    case Divide => DivideTool(x, y)
  }

  /** The divide tool fails on every zero divisor with the shared function's
      error, and no other registered tool ever fails. */
  lemma OnlyDivideFails(x: real, y: real)
    ensures Invoke(Find("divide").value, x, 0.0) == Failure(ValueError(SharedFunctions.DivideByZeroMessage))
    ensures forall t :: t in Tools && t.name != "divide" ==> Invoke(t, x, y).Success?
  {
  }
}

=== FILE: operations.dfy ===
/** The four tool names every front end recognises, and what each one computes. */
module Operations {
  import opened Wrappers
  import opened Values
  import SharedFunctions

  datatype Op = Add | Subtract | Multiply | Divide

  const Names: set<string> := {"add", "subtract", "multiply", "divide"}

  function Name(op: Op): string {
    match op
    case Add => "add"
    case Subtract => "subtract"
    case Multiply => "multiply"
    case Divide => "divide"
  }

  /** The operation a tool name selects. Names match exactly, case included. */
  function Named(name: string): (r: Option<Op>)
    ensures r.Some? <==> name in Names
    ensures r.Some? ==> Name(r.value) == name
  {
    if name == "add" then Some(Add)
    else if name == "subtract" then Some(Subtract)
    else if name == "multiply" then Some(Multiply)
    else if name == "divide" then Some(Divide)
    else None
  }

  lemma NamedInvertsName(op: Op)
    ensures Named(Name(op)) == Some(op)
  {
  }

  /** The shared function an operation forwards to; only divide can fail, and
      only on a zero divisor. */
  function Apply(op: Op, x: real, y: real): (r: Result<real, PyError>)
    ensures r.Failure? <==> op.Divide? && y == 0.0
    ensures r.Failure? ==> r.error == ValueError(SharedFunctions.DivideByZeroMessage)
  {
    match op
    case Add => Success(SharedFunctions.AddNumbers(x, y))
    case Subtract => Success(SharedFunctions.SubtractNumbers(x, y))
    case Multiply => Success(SharedFunctions.MultiplyNumbers(x, y))
    case Divide => SharedFunctions.DivideNumbers(x, y)
  }

  /** The Python operator each operation is written with. */
  function Operator(op: Op): string {
    match op
    case Add => "+"
    case Subtract => "-"
    case Multiply => "*"
    case Divide => "/"
  }

  /** `x <op> y` on two values taken from a document: numbers (and booleans)
      combine as the shared functions do, anything else raises TypeError, and a
      numeric zero divisor raises ZeroDivisionError. */
  function Evaluate(op: Op, x: Json, y: Json): (r: Result<real, PyError>)
    ensures r.Success? <==> Numeric(x).Some? && Numeric(y).Some? && !(op.Divide? && IsZero(y))
    ensures r.Success? ==> Apply(op, Numeric(x).value, Numeric(y).value) == r
    ensures Numeric(x).None? || Numeric(y).None? ==> r == Failure(OperandTypeError(Operator(op), x, y))
  {
    match (Numeric(x), Numeric(y))
    case (Some(a), Some(b)) =>
      if op.Divide? && b == 0.0 then Failure(ZeroDivisionError) else Apply(op, a, b)
    case _ => Failure(OperandTypeError(Operator(op), x, y))
  }
}

=== FILE: run_server.dfy ===
/** run_server.py: the stand-alone web server. It has no /config route, fixed
    CORS values, and inline arithmetic that rejects a zero divisor with 400
    before dividing. */
module RunServer {
  import opened Wrappers
  import opened Values
  import opened Http
  import opened Operations
  import opened ToolCall

  /** handle_tool_call. The operands are read before the name is looked up, so
      arguments that are not a dict fail with 500 even for an unknown name. */
  function HandleToolCall(p: Payload): (o: Outcome)
    ensures o.status in {200, 400, 500}
    ensures o.status == 200 <==> o.reply.Content?
    ensures o.status == 400 <==>
      && Decode(p).Success?
      && Arguments(p).Success?
      && (ToolOf(Decode(p).value.name).None? || DividesByZero(p))
    ensures Decode(p).Success? && Arguments(p).Success? && ToolOf(Decode(p).value.name).None? ==>
      o == Outcome(400, Error(NotFound(Decode(p).value.name)))
    ensures Decode(p).Failure? ==> o == Outcome(500, Raised(Decode(p).error))
    ensures Decode(p).Success? && Arguments(p).Failure? ==> o == Outcome(500, Raised(Arguments(p).error))
    ensures DividesByZero(p) ==> o == Outcome(400, DivideByZeroReply)
    ensures MistypedOperands(p) ==> o == Outcome(500, Raised(OperandError(p)))
    ensures o.status == 200 <==> Computes(p)
    ensures Computes(p) ==> o == Outcome(200, Computed(Answer(p)))
    ensures o.reply != Raised(ZeroDivisionError)
  {
    match Decode(p)
    case Failure(e) => Outcome(500, Raised(e))
    case Success(call) =>
      match Operands(call.arguments)
      case Failure(e) => Outcome(500, Raised(e))
      case Success((x, y)) =>
        match ToolOf(call.name)
        case None => Outcome(400, Error(NotFound(call.name)))
        case Some(op) =>
          if op.Divide? && IsZero(y) then Outcome(400, DivideByZeroReply)
          else
            match Evaluate(op, x, y)
            case Success(result) => Outcome(200, Computed(result))
            case Failure(e) => Outcome(500, Raised(e))
  }

  /** do_GET: the index and files under /static/; everything else, /config
      included, is 404. */
  function HandleGet(staticDir: string, disk: Disk, path: string): (r: Response)
    ensures !r.JsonResponse?
    ensures path == "/" || path == "/index.html" ==>
      r == ServeFile(disk, staticDir, "index.html", "text/html")
    ensures StaticName(path).Some? ==>
      r == ServeFile(disk, staticDir, StaticName(path).value, ContentTypeFor(StaticName(path).value))
    ensures path !in {"/", "/index.html"} && !StartsWith(path, StaticPrefix) ==> r == ErrorPage(404)
  {
    FixedRoutesNotStatic();
    if path == "/" || path == "/index.html" then
      ServeFile(disk, staticDir, "index.html", "text/html")
    else match StaticName(path)
      case Some(name) => ServeFile(disk, staticDir, name, ContentTypeFor(name))
      case None => ErrorPage(404)
  }

  /** do_GET, do_POST and do_OPTIONS with the hard-coded CORS values. */
  function Handle(staticDir: string, disk: Disk, req: Request): (r: Response)
    ensures req.verb.Options? ==> r == Preflight(DefaultCors) && Status(r) == 200 && !HasBody(r)
    ensures req.verb.Post? && req.path == "/call_tool" ==> r == Send(DefaultCors, HandleToolCall(req.payload))
    ensures req.verb.Post? && req.path != "/call_tool" ==> r == ErrorPage(404)
    ensures req.verb.Get? ==> r == HandleGet(staticDir, disk, req.path)
    ensures r.JsonResponse? ==> r.cors == DefaultCors
  {
    match req.verb
    case Get => HandleGet(staticDir, disk, req.path)
    case Post =>
      if req.path == "/call_tool" then Send(DefaultCors, HandleToolCall(req.payload)) else ErrorPage(404)
    case Options => Preflight(DefaultCors)
  }
}

=== FILE: server.dfy ===
/** server.py: a second copy of the tool-protocol server (the one main.py
    starts) that carries its own copies of the four calculation functions
    instead of importing them. */
module Server {
  import opened Wrappers
  import opened Values
  import opened Operations
  import SharedFunctions
  import McpServer

  function AddNumbers(x: real, y: real): real {
    x + y
  }

  function SubtractNumbers(x: real, y: real): real {
    x - y
  }

  function MultiplyNumbers(x: real, y: real): real {
    x * y
  }

  function DivideNumbers(x: real, y: real): (r: Result<real, PyError>)
    ensures r.Failure? <==> y == 0.0
    ensures r.Failure? ==> r.error == ValueError("Cannot divide by zero")
    ensures r.Success? ==> r.value * y == x
  {
    if y == 0.0 then Failure(ValueError("Cannot divide by zero")) else Success(x / y)
  }

  /** Each copy agrees with its namesake in shared_functions.py on every input. */
  lemma CopiesAgreeWithShared(x: real, y: real)
    ensures AddNumbers(x, y) == SharedFunctions.AddNumbers(x, y)
    ensures SubtractNumbers(x, y) == SharedFunctions.SubtractNumbers(x, y)
    ensures MultiplyNumbers(x, y) == SharedFunctions.MultiplyNumbers(x, y)
    ensures DivideNumbers(x, y) == SharedFunctions.DivideNumbers(x, y)
  {
  }

  /** The registrations, identical in names and descriptions to mcp_server.py's. */
  const Tools: seq<McpServer.Tool> := [
    McpServer.Tool("add", "Add two numbers together", Add),
    McpServer.Tool("subtract", "Subtract two numbers", Subtract),
    McpServer.Tool("multiply", "Multiply two numbers", Multiply),
    McpServer.Tool("divide", "Divide two numbers", Divide)
  ]

  /** The tool wrappers, forwarding to this file's own copies. */
  function Invoke(t: McpServer.Tool, x: real, y: real): (r: Result<real, PyError>)
    ensures r.Failure? <==> t.op.Divide? && y == 0.0
  {
    match t.op
    case Add => Success(AddNumbers(x, y))
    case Subtract => Success(SubtractNumbers(x, y))
    case Multiply => Success(MultiplyNumbers(x, y))
    case Divide => DivideNumbers(x, y)
  }

  /** The two tool tables register the same tools, and every tool computes the
      same thing in both. */
  lemma SameToolsAsMcpServer(x: real, y: real)
    ensures Tools == McpServer.Tools
    ensures forall t :: t in Tools ==> Invoke(t, x, y) == McpServer.Invoke(t, x, y)
  {
    CopiesAgreeWithShared(x, y);
  }
}

=== FILE: shared_functions.dfy ===
/** The four calculation functions of shared_functions.py, which the tool-protocol
    server and the full web server both call. Their log lines are not modelled. */
module SharedFunctions {
  import opened Wrappers
  import opened Values

  const DivideByZeroMessage := "Cannot divide by zero"

  function AddNumbers(x: real, y: real): real {
    x + y
  }

  function SubtractNumbers(x: real, y: real): real {
    x - y
  }

  function MultiplyNumbers(x: real, y: real): real {
    x * y
  }

  /** The one function of the four that can fail: a zero divisor raises
      ValueError("Cannot divide by zero") before any division happens. */
  function DivideNumbers(x: real, y: real): (r: Result<real, PyError>)
    ensures r.Failure? <==> y == 0.0
    ensures r.Failure? ==> r.error == ValueError(DivideByZeroMessage)
    ensures r.Success? ==> r.value * y == x
  {
    if y == 0.0 then Failure(ValueError(DivideByZeroMessage)) else Success(x / y)
  }

  lemma AddCommutes(x: real, y: real)
    ensures AddNumbers(x, y) == AddNumbers(y, x)
  {
  }

  /** Subtraction undoes addition, so add_numbers and subtract_numbers are
      partners. */
  lemma SubtractUndoesAdd(x: real, y: real)
    ensures SubtractNumbers(AddNumbers(x, y), y) == x
    ensures AddNumbers(SubtractNumbers(x, y), y) == x
  {
  }

  lemma SubtractAntisymmetric(x: real, y: real)
    ensures SubtractNumbers(x, y) == -SubtractNumbers(y, x)
  {
  }

  lemma MultiplyCommutes(x: real, y: real)
    ensures MultiplyNumbers(x, y) == MultiplyNumbers(y, x)
  {
  }

  /** Over the reals, dividing by a non-zero y undoes multiplying by it. */
  lemma DivideUndoesMultiply(x: real, y: real)
    requires y != 0.0
    ensures DivideNumbers(MultiplyNumbers(x, y), y) == Success(x)
  {
    var q := DivideNumbers(MultiplyNumbers(x, y), y).value;
    assert q * y == x * y;
    assert (q - x) * y == 0.0;
  }

  /** Every dividend fails the same way against a zero divisor. */
  lemma DivideByZeroFails(x: real)
    ensures DivideNumbers(x, 0.0) == Failure(ValueError(DivideByZeroMessage))
  {
  }
}

=== FILE: simple_server.dfy ===
/** simple_server.py: the minimal server. GET is left to the library's static
    file handler after rewriting "/" to "/index.html"; POST /call_tool is
    handled with the same inline arithmetic as run_server.py. */
module SimpleServer {
  import opened Wrappers
  import opened Values
  import opened Http
  import opened Operations
  import opened ToolCall

  /** The path the library handler is given: "/" becomes "/index.html", every
      other path passes through unchanged. */
  function GetTarget(path: string): (target: string)
    ensures path == "/" ==> target == "/index.html"
    ensures path != "/" ==> target == path
  {
    if path == "/" then "/index.html" else path
  }

  /** handle_tool_call, written out as simple_server.py has it: the operands
      are read before the name is looked up, and a zero divisor is rejected with
      400 before any arithmetic. */
  function HandleToolCall(p: Payload): (o: Outcome)
    ensures o.status in {200, 400, 500}
    ensures o.status == 200 <==> o.reply.Content?
    ensures o.status == 400 <==>
      && Decode(p).Success?
      && Arguments(p).Success?
      && (ToolOf(Decode(p).value.name).None? || DividesByZero(p))
    ensures Decode(p).Success? && Arguments(p).Success? && ToolOf(Decode(p).value.name).None? ==>
      o == Outcome(400, Error(NotFound(Decode(p).value.name)))
    ensures Decode(p).Failure? ==> o == Outcome(500, Raised(Decode(p).error))
    ensures Decode(p).Success? && Arguments(p).Failure? ==> o == Outcome(500, Raised(Arguments(p).error))
    ensures DividesByZero(p) ==> o == Outcome(400, DivideByZeroReply)
    ensures MistypedOperands(p) ==> o == Outcome(500, Raised(OperandError(p)))
    ensures o.status == 200 <==> Computes(p)
    ensures Computes(p) ==> o == Outcome(200, Computed(Answer(p)))
    ensures o.reply != Raised(ZeroDivisionError)
  {
    match Decode(p)
    case Failure(e) => Outcome(500, Raised(e))
    case Success(call) =>
      match Operands(call.arguments)
      case Failure(e) => Outcome(500, Raised(e))
      case Success((x, y)) =>
        match ToolOf(call.name)
        case None => Outcome(400, Error(NotFound(call.name)))
        case Some(op) =>
          if op.Divide? && IsZero(y) then Outcome(400, DivideByZeroReply)
          else
            match Evaluate(op, x, y)
            case Success(result) => Outcome(200, Computed(result))
            case Failure(e) => Outcome(500, Raised(e))
  }

  function Handle(req: Request): (r: Response)
    ensures req.verb.Get? ==> r == Delegated(GetTarget(req.path))
    ensures req.verb.Options? ==> r == Preflight(DefaultCors) && Status(r) == 200 && !HasBody(r)
    ensures req.verb.Post? && req.path == "/call_tool" ==> r == Send(DefaultCors, HandleToolCall(req.payload))
    ensures req.verb.Post? && req.path != "/call_tool" ==> r == ErrorPage(404)
  {
    match req.verb
    case Get => Delegated(GetTarget(req.path))
    case Post =>
      if req.path == "/call_tool" then Send(DefaultCors, HandleToolCall(req.payload)) else ErrorPage(404)
    case Options => Preflight(DefaultCors)
  }
}

=== FILE: tool_call.dfy ===
/** The lines the three handle_tool_call variants share word for word: reading
    the body, taking the name and the arguments out of it, looking the name up,
    and the JSON objects they answer with. */
module ToolCall {
  import opened Wrappers
  import opened Values
  import opened Http
  import opened Operations
  import SharedFunctions

  /** request_data.get("name") and request_data.get("arguments", {}). */
  datatype Call = Call(name: Json, arguments: Json)

  /** Parse the body, then take the name (None when absent) and the arguments
      ({} when absent) out of it; a document that is not a dict has no .get. */
  function Decode(p: Payload): (r: Result<Call, PyError>)
    ensures r.Success? <==> p.Decoded? && p.doc.Object?
    ensures p.Unreadable? ==> r == Failure(BodyError(p.fault))
    ensures p.Decoded? && !p.doc.Object? ==> r == Failure(NoGetAttribute(p.doc))
    ensures r.Success? && "name" in p.doc.fields ==> r.value.name == p.doc.fields["name"]
    ensures r.Success? && "name" !in p.doc.fields ==> r.value.name == Null
    ensures r.Success? && "arguments" in p.doc.fields ==> r.value.arguments == p.doc.fields["arguments"]
    ensures r.Success? && "arguments" !in p.doc.fields ==> r.value.arguments == Object(map[])
  {
    match p
    case Unreadable(fault) => Failure(BodyError(fault))
    case Decoded(doc) =>
      match DictGet(doc, "name", Null)
      case Failure(e) => Failure(e)
      case Success(name) =>
        match DictGet(doc, "arguments", Object(map[]))
        case Failure(e) => Failure(e)
        case Success(arguments) => Success(Call(name, arguments))
  }

  /** arguments.get("x", 0), then arguments.get("y", 0): an absent operand is 0,
      and arguments that are not a dict raise AttributeError. */
  function Operands(arguments: Json): (r: Result<(Json, Json), PyError>)
    ensures r.Success? <==> arguments.Object?
    ensures r.Failure? ==> r.error == NoGetAttribute(arguments)
    ensures r.Success? && "x" in arguments.fields ==> r.value.0 == arguments.fields["x"]
    ensures r.Success? && "x" !in arguments.fields ==> r.value.0 == Number(0.0)
    ensures r.Success? && "y" in arguments.fields ==> r.value.1 == arguments.fields["y"]
    ensures r.Success? && "y" !in arguments.fields ==> r.value.1 == Number(0.0)
  {
    match DictGet(arguments, "x", Number(0.0))
    case Failure(e) => Failure(e)
    case Success(x) =>
      match DictGet(arguments, "y", Number(0.0))
      case Failure(e) => Failure(e)
      case Success(y) => Success((x, y))
  }

  /** The chain tool_name == "add", == "subtract", ...: only a string equal to
      one of the four names selects a tool. */
  function ToolOf(name: Json): (op: Option<Op>)
    ensures op.Some? <==> name.Str? && name.s in Names
    ensures op.Some? ==> name == Str(Name(op.value))
  {
    if name.Str? then Named(name.s) else None
  }

  /** The tool a body names, when it decodes and the name is one of the four. */
  function Tool(p: Payload): (op: Option<Op>)
    ensures op.Some? ==> Decode(p).Success? && op == ToolOf(Decode(p).value.name)
  {
    if Decode(p).Success? then ToolOf(Decode(p).value.name) else None
  }

  /** The operands a decodable body carries, or the AttributeError reading them raises. */
  function Arguments(p: Payload): Result<(Json, Json), PyError>
    requires Decode(p).Success?
  {
    Operands(Decode(p).value.arguments)
  }

  /** A known divide whose divisor reads as zero (Python's `y == 0`). */
  predicate DividesByZero(p: Payload) {
    && Tool(p) == Some(Divide)
    && Arguments(p).Success?
    && IsZero(Arguments(p).value.1)
  }

  /** A known tool whose operands are read, both numbers, and not a zero
      divisor for divide: the arithmetic runs to a number. */
  predicate Computes(p: Payload) {
    && Tool(p).Some?
    && Arguments(p).Success?
    && Numeric(Arguments(p).value.0).Some?
    && Numeric(Arguments(p).value.1).Some?
    && !DividesByZero(p)
  }

  /** The number a computing body yields. */
  function Answer(p: Payload): real
    requires Computes(p)
  {
    var r := Apply(Tool(p).value, Numeric(Arguments(p).value.0).value, Numeric(Arguments(p).value.1).value);
    assert r.Success?;
    r.value
  }

  /** A known tool whose operands are read but are not both numbers, and which
      is not a zero divisor: `x <op> y` raises TypeError. */
  predicate MistypedOperands(p: Payload) {
    && Tool(p).Some?
    && Arguments(p).Success?
    && !DividesByZero(p)
    && !Computes(p)
  }

  /** The TypeError a mistyped body raises. */
  function OperandError(p: Payload): PyError
    requires MistypedOperands(p)
  {
    OperandTypeError(Operator(Tool(p).value), Arguments(p).value.0, Arguments(p).value.1)
  }

  /** f"Herramienta '{tool_name}' no encontrada". */
  function NotFound(name: Json): Text {
    [Chars("Herramienta '")] + PyStr(name) + [Chars("' no encontrada")]
  }

  /** The unknown-tool message spelled out for a string name and for an absent
      one (which Python renders as None). */
  lemma NotFoundSpelled(name: Json)
    ensures name.Str? ==> Plain(NotFound(name)) == Some("Herramienta '" + name.s + "' no encontrada")
    ensures name.Null? ==> Plain(NotFound(name)) == Some("Herramienta 'None' no encontrada")
  {
    var head: Text := [Chars("Herramienta '")];
    var tail: Text := [Chars("' no encontrada")];
    PlainConcat(head, PyStr(name));
    PlainConcat(head + PyStr(name), tail);
    assert "Herramienta '" + "None" + "' no encontrada" == "Herramienta 'None' no encontrada";
  }

  /** {"error": "Cannot divide by zero"}. */
  const DivideByZeroReply := Error([Chars(SharedFunctions.DivideByZeroMessage)])

  /** {"content": [{"text": str(result)}]}. */
  function Computed(result: real): Reply {
    Content(PyStr(Number(result)))
  }

  /** {"error": str(e)}. */
  function Raised(e: PyError): Reply {
    Error(ErrorStr(e))
  }

  /** A raised ValueError("Cannot divide by zero") answers with the same object
      as the one written out literally. */
  lemma RaisedDivideByZero()
    ensures Raised(ValueError(SharedFunctions.DivideByZeroMessage)) == DivideByZeroReply
  {
  }
}

=== FILE: values.dfy ===
/** The Python values a request body turns into, the exceptions the request
    handlers can raise, and the text str() makes of either. */
module Values {
  import opened Wrappers

  /** A document as json.loads returns it. Null is Python's None; numbers, int or
      float alike, are idealised as reals. */
  datatype Json =
    | Null
    | Boolean(b: bool)
    | Number(n: real)
    | Str(s: string)
    | Array(items: seq<Json>)
    | Object(fields: map<string, Json>)

  /** Why the body of a POST yielded no document at all. */
  datatype Fault =
    | MissingContentLength  // int(None) raises TypeError
    | BadContentLength      // int() of a non-numeral raises ValueError
    | BadEncoding           // the bytes are not UTF-8: UnicodeDecodeError, a ValueError
    | BadJson               // json.loads rejects the text: JSONDecodeError, a ValueError

  /** The exceptions a handler can raise, as far as the model tells them apart. */
  datatype PyError =
    | ValueError(message: string)
    | BodyError(fault: Fault)
    | NoGetAttribute(receiver: Json)                        // AttributeError: only a dict has .get
    | OperandTypeError(operator: string, x: Json, y: Json)  // TypeError: unsupported operand type(s)
    | ZeroDivisionError

  /** A piece of the text str() produces. Chars is text the model knows exactly;
      the other pieces stand for renderings whose characters it leaves open. */
  datatype Piece =
    | Chars(s: string)
    | NumberText(n: real)    // str() of an int or float
    | ReprText(v: Json)      // str() of a list or a dict
    | ErrorText(e: PyError)  // str() of an exception whose message the model leaves open

  type Text = seq<Piece>

  /** The characters of t, when every piece of it is known text. */
  function Plain(t: Text): (r: Option<string>)
    ensures r.Some? <==> forall i :: 0 <= i < |t| ==> t[i].Chars?
    ensures t == [] ==> r == Some("")
    ensures |t| == 1 && t[0].Chars? ==> r == Some(t[0].s)
  {
    if t == [] then Some("")
    else
      match (t[0], Plain(t[1..]))
      case (Chars(s), Some(rest)) => assert |t| == 1 ==> rest == ""; assert s + "" == s; Some(s + rest)
      case _ => None
  }

  lemma {:induction false} PlainConcat(a: Text, b: Text)
    ensures Plain(a + b) ==
      if Plain(a).Some? && Plain(b).Some? then Some(Plain(a).value + Plain(b).value) else None
  {
    if a == [] {
      assert a + b == b;
      if Plain(b).Some? {
        assert "" + Plain(b).value == Plain(b).value;
      }
    } else {
      assert (a + b)[0] == a[0];
      assert (a + b)[1..] == a[1..] + b;
      PlainConcat(a[1..], b);
      if a[0].Chars? && Plain(a[1..]).Some? && Plain(b).Some? {
        assert a[0].s + (Plain(a[1..]).value + Plain(b).value)
            == (a[0].s + Plain(a[1..]).value) + Plain(b).value;
      }
    }
  }

  /** str(v) for a value taken from a document. */
  function PyStr(v: Json): (t: Text)
    ensures |t| == 1
    ensures Plain(t).Some? <==> (v.Null? || v.Boolean? || v.Str?)
    ensures v.Str? ==> Plain(t) == Some(v.s)
    ensures v.Null? ==> Plain(t) == Some("None")
    ensures v.Boolean? ==> Plain(t) == Some(if v.b then "True" else "False")
  {
    match v
    case Null => [Chars("None")]
    case Boolean(b) => [Chars(if b then "True" else "False")]
    case Number(n) => [NumberText(n)]
    case Str(s) => [Chars(s)]
    case _ => [ReprText(v)]
  }

  /** str(e) for a raised exception: a ValueError the handlers raise themselves
      renders as its message. The ValueErrors a malformed body raises (from
      int(), decoding or json.loads) are also rendered as their messages by
      Python, but those messages are the library's and stay symbolic here. */
  function ErrorStr(e: PyError): (t: Text)
    ensures e.ValueError? ==> Plain(t) == Some(e.message)
    ensures !e.ValueError? ==> Plain(t).None?
  {
    match e
    case ValueError(m) => [Chars(m)]
    case _ => [ErrorText(e)]
  }

  /** The number Python arithmetic sees in v: ints and floats as they are, True
      and False as 1 and 0 (bool is a subclass of int), nothing for the rest. */
  function Numeric(v: Json): Option<real> {
    match v
    case Number(n) => Some(n)
    case Boolean(b) => Some(if b then 1.0 else 0.0)
    case _ => None
  }

  /** Python's `v == 0`. */
  predicate IsZero(v: Json) {
    Numeric(v) == Some(0.0)
  }

  /** v.get(key, default): AttributeError unless v is a dict. */
  function DictGet(v: Json, key: string, default: Json): Result<Json, PyError> {
    if !v.Object? then Failure(NoGetAttribute(v))
    else if key in v.fields then Success(v.fields[key])
    else Success(default)
  }
}

=== FILE: variants.dfy ===
/** The three web-server variants side by side: each against the dispatch
    contract, and each against the others. */
module Variants {
  import opened Wrappers
  import opened Values
  import opened Http
  import opened Operations
  import opened ToolCall
  import opened Dispatcher
  import WebServer
  import RunServer
  import SimpleServer

  /** Operands read from a well-formed body are the numbers it carries. */
  lemma OperandsCarried(p: Payload, name: Json, x: real, y: real)
    requires Carries(p, name, x, y)
    ensures Operands(Decode(p).value.arguments).Success?
    ensures Numeric(Operands(Decode(p).value.arguments).value.0) == Some(x)
    ensures Numeric(Operands(Decode(p).value.arguments).value.1) == Some(y)
  {
  }

  /** For a well-formed body web_server.py keeps the dispatch contract, with a
      zero divisor answered 500. */
  lemma WebFollowsContract(p: Payload, name: Json, x: real, y: real)
    requires Carries(p, name, x, y)
    ensures WebServer.HandleToolCall(p) == Render(Dispatch(name, x, y), 500)
  {
    OperandsCarried(p, name, x, y);
    RaisedDivideByZero();
  }

  /** For a well-formed body run_server.py keeps the dispatch contract, with a
      zero divisor answered 400. */
  lemma RunFollowsContract(p: Payload, name: Json, x: real, y: real)
    requires Carries(p, name, x, y)
    ensures RunServer.HandleToolCall(p) == Render(Dispatch(name, x, y), 400)
  {
    OperandsCarried(p, name, x, y);
    var o := RunServer.HandleToolCall(p);
    match ToolOf(name)
    case None =>
      assert o == Outcome(400, Error(NotFound(name)));
    case Some(op) =>
      if op.Divide? && y == 0.0 {
        assert DividesByZero(p);
      } else {
        assert Computes(p);
        assert o == Outcome(200, Computed(Apply(op, x, y).value));
      }
  }

  /** simple_server.py answers every tool call exactly as run_server.py does. */
  lemma SimpleMatchesRun(p: Payload)
    ensures SimpleServer.HandleToolCall(p) == RunServer.HandleToolCall(p)
  {
  }

  lemma SimpleFollowsContract(p: Payload, name: Json, x: real, y: real)
    requires Carries(p, name, x, y)
    ensures SimpleServer.HandleToolCall(p) == Render(Dispatch(name, x, y), 400)
  {
    SimpleMatchesRun(p);
    RunFollowsContract(p, name, x, y);
  }

  /** An unknown name together with arguments that are not a dict. */
  predicate UnknownWithBadArguments(p: Payload) {
    && Decode(p).Success?
    && ToolOf(Decode(p).value.name).None?
    && !Decode(p).value.arguments.Object?
  }

  /** web_server.py and run_server.py answer a tool call differently exactly in
      two cases: a zero divisor (500 against 400, same message), and an unknown
      name with arguments that are not a dict (web_server.py never reads them,
      run_server.py fails reading them). */
  lemma WebAndRunDiffer(p: Payload)
    ensures WebServer.HandleToolCall(p) != RunServer.HandleToolCall(p)
        <==> DividesByZero(p) || UnknownWithBadArguments(p)
    ensures DividesByZero(p) ==>
      && WebServer.HandleToolCall(p) == Outcome(500, DivideByZeroReply)
      && RunServer.HandleToolCall(p) == Outcome(400, DivideByZeroReply)
    ensures UnknownWithBadArguments(p) ==>
      && WebServer.HandleToolCall(p) == Outcome(400, Error(NotFound(Decode(p).value.name)))
      && RunServer.HandleToolCall(p) == Outcome(500, Raised(NoGetAttribute(Decode(p).value.arguments)))
  {
    RaisedDivideByZero();
  }

  /** With the default CORS values and the same static directory, the two
      servers answer every request alike except GET /config and the two tool
      calls above. */
  lemma WebAndRunAgreeElsewhere(s: WebServer.Settings, disk: Disk, req: Request)
    requires s.cors == DefaultCors
    requires !(req.verb.Get? && req.path == "/config")
    requires !(req.verb.Post? && req.path == "/call_tool" &&
               (DividesByZero(req.payload) || UnknownWithBadArguments(req.payload)))
    ensures WebServer.Handle(s, disk, req) == RunServer.Handle(s.staticDir, disk, req)
  {
    if req.verb.Post? && req.path == "/call_tool" {
      WebAndRunDiffer(req.payload);
    }
  }

  /** Only web_server.py routes /config. */
  lemma ConfigOnlyOnWeb(s: WebServer.Settings, disk: Disk, p: Payload)
    ensures WebServer.Handle(s, disk, Request(Get, "/config", p)) == JsonResponse(200, s.cors, Config(s.config))
    ensures RunServer.Handle(s.staticDir, disk, Request(Get, "/config", p)) == ErrorPage(404)
  {
    FixedRoutesNotStatic();
  }

  /** simple_server.py and run_server.py differ only in how GET is served. */
  lemma SimpleMatchesRunBesidesGet(staticDir: string, disk: Disk, req: Request)
    requires !req.verb.Get?
    ensures SimpleServer.Handle(req) == RunServer.Handle(staticDir, disk, req)
  {
    SimpleMatchesRun(req.payload);
  }

  /** The unrouted path /nonexistent is 404 on both servers that route GET. */
  lemma UnroutedPathIsNotFound(s: WebServer.Settings, disk: Disk, p: Payload)
    ensures WebServer.Handle(s, disk, Request(Get, "/nonexistent", p)) == ErrorPage(404)
    ensures RunServer.Handle(s.staticDir, disk, Request(Get, "/nonexistent", p)) == ErrorPage(404)
  {
    assert !StartsWith("/nonexistent", StaticPrefix) by {
      assert "/nonexistent"[1] != StaticPrefix[1];
    }
  }
}

=== FILE: web_server.dfy ===
/** web_server.py: the full web server. It routes /config, reads its CORS
    values and static directory from the environment, and computes through
    the shared functions, so a zero divisor surfaces as a raised ValueError. */
module WebServer {
  import opened Wrappers
  import opened Values
  import opened Http
  import opened Operations
  import opened ToolCall
  import SharedFunctions

  /** The environment-derived values the handler uses. */
  datatype Settings = Settings(cors: Cors, staticDir: string, config: UiConfig)

  /** add_numbers(x, y) and its siblings, called with the values straight from
      the document: divide_numbers compares y with 0 before it divides. On
      numbers the call is exactly the shared function. */
  function CallShared(op: Op, x: Json, y: Json): (r: Result<real, PyError>)
    ensures Numeric(x).Some? && Numeric(y).Some? ==> r == Apply(op, Numeric(x).value, Numeric(y).value)
    ensures op.Divide? && IsZero(y) ==> r == Failure(ValueError(SharedFunctions.DivideByZeroMessage))
    ensures r != Failure(ZeroDivisionError)
  {
    if op.Divide? && IsZero(y) then Failure(ValueError(SharedFunctions.DivideByZeroMessage))
    else Evaluate(op, x, y)
  }

  /** handle_tool_call. The name is looked up first, so an unknown name answers
      400 whatever the arguments are; for a known one the operands are read and
      the shared function runs, and anything raised becomes 500 with str(e). */
  function HandleToolCall(p: Payload): (o: Outcome)
    ensures o.status in {200, 400, 500}
    ensures o.status == 200 <==> o.reply.Content?
    ensures o.status == 400 <==> Decode(p).Success? && ToolOf(Decode(p).value.name).None?
    ensures o.status == 400 ==> o.reply == Error(NotFound(Decode(p).value.name))
    ensures Decode(p).Failure? ==> o == Outcome(500, Raised(Decode(p).error))
    ensures Tool(p).Some? && Arguments(p).Failure? ==> o == Outcome(500, Raised(Arguments(p).error))
    ensures DividesByZero(p) ==> o == Outcome(500, Raised(ValueError(SharedFunctions.DivideByZeroMessage)))
    ensures MistypedOperands(p) ==> o == Outcome(500, Raised(OperandError(p)))
    ensures o.status == 200 <==> Computes(p)
    ensures Computes(p) ==> o == Outcome(200, Computed(Answer(p)))
    ensures o.reply != Raised(ZeroDivisionError)
  {
    match Decode(p)
    case Failure(e) => Outcome(500, Raised(e))
    case Success(call) =>
      match ToolOf(call.name)
      case None => Outcome(400, Error(NotFound(call.name)))
      case Some(op) =>
        match Operands(call.arguments)
        case Failure(e) => Outcome(500, Raised(e))
        case Success((x, y)) =>
          match CallShared(op, x, y)
          case Success(result) => Outcome(200, Computed(result))
          case Failure(e) => Outcome(500, Raised(e))
  }

  /** do_GET: the index, /config, files under /static/, and 404 for the rest. */
  function HandleGet(s: Settings, disk: Disk, path: string): (r: Response)
    ensures r.JsonResponse? <==> path == "/config"
    ensures r.JsonResponse? ==> r == JsonResponse(200, s.cors, Config(s.config))
    ensures path == "/" || path == "/index.html" ==>
      r == ServeFile(disk, s.staticDir, "index.html", "text/html")
    ensures StaticName(path).Some? ==>
      r == ServeFile(disk, s.staticDir, StaticName(path).value, ContentTypeFor(StaticName(path).value))
    ensures path !in {"/", "/index.html", "/config"} && !StartsWith(path, StaticPrefix) ==>
      r == ErrorPage(404)
  {
    FixedRoutesNotStatic();
    if path == "/" || path == "/index.html" then
      ServeFile(disk, s.staticDir, "index.html", "text/html")
    else if path == "/config" then
      JsonResponse(200, s.cors, Config(s.config))
    else match StaticName(path)
      case Some(name) => ServeFile(disk, s.staticDir, name, ContentTypeFor(name))
      case None => ErrorPage(404)
  }

  /** do_GET, do_POST and do_OPTIONS. Every JSON answer goes out through
      send_json_response with the configured CORS values. */
  function Handle(s: Settings, disk: Disk, req: Request): (r: Response)
    ensures req.verb.Options? ==> r == Preflight(s.cors) && Status(r) == 200 && !HasBody(r)
    ensures req.verb.Post? && req.path == "/call_tool" ==> r == Send(s.cors, HandleToolCall(req.payload))
    ensures req.verb.Post? && req.path != "/call_tool" ==> r == ErrorPage(404)
    ensures req.verb.Get? ==> r == HandleGet(s, disk, req.path)
    ensures r.JsonResponse? ==> r.cors == s.cors
  {
    match req.verb
    case Get => HandleGet(s, disk, req.path)
    case Post =>
      if req.path == "/call_tool" then Send(s.cors, HandleToolCall(req.payload)) else ErrorPage(404)
    case Options => Preflight(s.cors)
  }
}

=== FILE: wrappers.dfy ===
/** Option and Result: the failure-carrying datatypes the rest of the model uses
    in place of Python's None and raised exceptions. */
module Wrappers {

  datatype Option<+T> = None | Some(value: T)

  datatype Result<+R, +E> = Success(value: R) | Failure(error: E)
}
